=== FILE: README.md ===
# Reading tracker: book and note bookkeeping

A Dafny model of the book/note handlers of a small reading-tracker backend
(`backend/book/api.go`). The backend keeps books and notes in two
MongoDB collections, and each book lists the ids of its notes. The model
replaces the database with two immutable maps (`Store(books, notes)`). Each
HTTP handler becomes a pure function of three things: the store, the
request's inputs, and one boolean per store call saying whether that call
succeeded. It returns a `Reply` with three parts:

- the new store;
- the store calls issued, in order (`seq<Call>`);
- the handler's answer (`Result<T, Error>`).

The call trace lets contracts state ordering. The new id is pushed before
the note is inserted. A note is detached before its document is deleted. A
malformed id means no store call at all.

Modules, one per component:

- `ObjectId`: the 12-byte ObjectID and its 24-digit hexadecimal text form. `Decode` is `ObjectIDFromHex`; `Encode` is `Hex`.
- `Model`: the `Book` and `Note` documents (shapes of `backend/tracker/model.go:9-27`), the store, errors, JSON field values and the store-call vocabulary. It also holds the invariant `Valid`: every document is stored under its own id, and every id a book lists names an existing note owned by that book.
- `NoteRefs`: the `$push` onto a book's `notes`, and the `deleteNote` helper modelled as `Detach`.
- `ListFilter`: the filter `ListBook` builds and the books a `Find` with it selects.
- `PartialUpdate`: the id decoding and `$set` field selection shared by `EditBook` and `EditNote`, and how a `$set` changes a typed document. A `""` value is skipped; a JSON `null` is kept and clears the field.
- `BookApi`, `NoteApi`: the ten handlers.
- `Properties`: the invariant each handler keeps or breaks, and the create/attach/delete scenarios.

Assumptions about helpers whose bodies are not part of this model:

- `deleteNote(bookID, noteID)` is `NoteRefs.Detach`. When it reports success, the id is gone from that book's `notes`; all occurrences are removed, as a `$pull` would. When it reports failure, nothing changed. Both are inferred from its call sites (api.go:338-340, 364-368).
- `getBook` behaves like the inline lookup of `GetBook`: `FindOne` then `Decode`, with the zero value on a miss.
- `strIdToPrimitive(v)` accepts exactly a string value that `ObjectIDFromHex` accepts.
- `ObjectIDFromHex` accepts exactly 24 hexadecimal digits in either case. This is the MongoDB Go driver's behaviour.

In these places the model follows the code:

- `AddNote` does not check the result of the `$push`. A note for a missing book is still inserted, and no "book not found" error is reported.
- `DeleteNote` does not check that its lookup found the note. A miss gives a nil owner id, and the handler carries on with it.
- `EditNote` reports the modified count. It reports 0, not "not found", when no note matches.
- `DeleteBook` reports a deleted count of 0, not "not found", for a missing book.
- The note struct in `backend/tracker/model.go` has its creation time commented out. The handlers use a models package whose note has one, so `Note` keeps `createTime`.

## Model

| member | source | states |
|---|---|---|
| ObjectId.Decode | backend/book/api.go:119-124 | an id text is accepted exactly when it is 24 hexadecimal digits |
| ObjectId.Encode | backend/book/api.go:162 | the id a create returns is 24 lower-case hexadecimal digits |
| ObjectId.DecodeEncode | backend/book/api.go:152-162 | the text of a returned id decodes back to that id |
| ObjectId.EncodeDecode | backend/book/api.go:263-268 | an accepted id text is the canonical text of its id, up to letter case |
| ObjectId.DecodeInjective | backend/book/api.go:295-300 | two id texts name the same document exactly when they agree up to case |
| ListFilter.BuildFilter | backend/book/api.go:59-89 | the filter is match-all exactly when title, author and status are all empty; otherwise it holds exactly the non-empty ones, with their values |
| ListFilter.SelectAsWritten | backend/book/api.go:93 | the `Find` returns exactly the stored books matching the filter as issued, and every book for match-all |
| ListFilter.SelectAsWrittenMeaning | backend/book/api.go:72-93 | as written, a listing returns exactly the stored books that agree with every non-empty title and author, and only when no status is given |
| ListFilter.SelectMeaning | backend/book/api.go:72-93 | with status compared numerically, a listing would return exactly the stored books that agree with every non-empty parameter |
| ListFilter.StatusFilterMatchesNothing | backend/book/api.go:60-93 | as written, a non-empty status parameter selects no book, because a string never equals the integer status |
| ListFilter.StatusFilterCounterexample | backend/book/api.go:64-93 | a book with status 1 is missed by `status=1` as written and found when status compares numerically |
| ListFilter.SelectByStatus | backend/book/api.go:64-93 | with status compared numerically, `status=n` selects exactly the books whose status is n |
| NoteRefs.Without | backend/book/api.go:363-368 | detaching removes every occurrence of the note id and keeps every other id as often as it occurred |
| NoteRefs.WithoutConcat | backend/book/api.go:363-368 | detaching works piecewise over a split list, so the kept ids stay in their original order |
| NoteRefs.DetachKeepsOrder | backend/book/api.go:363-368 | detaching an id listed once leaves exactly the ids before and after it, in order |
| NoteRefs.WithoutAppended | backend/book/api.go:336-341 | removing an id just appended to a list that lacked it gives back the list |
| NoteRefs.AppendedOnce | backend/book/api.go:326-329 | an id pushed onto a list that lacked it occurs there exactly once |
| NoteRefs.DetachUndoesPush | backend/book/api.go:327-341 | a successful compensation after a push restores the store exactly |
| NoteRefs.Push | backend/book/api.go:327-329 | the `$push` appends the id to an existing book's list, changes no other document, and is a silent no-op for a missing book |
| NoteRefs.Detach | backend/book/api.go:364-368 | a `deleteNote` reported successful leaves the id absent from that book's list with every other id kept; a failed one changes nothing |
| Model.FindBook | backend/book/api.go:127-133 | a lookup yields the stored book when it succeeds and the book exists, and otherwise the all-zero book: nil id, empty text, status 0, zero times, no notes |
| Model.FindNote | backend/book/api.go:302-308 | a lookup yields the stored note when it succeeds and the note exists, and otherwise the all-zero note: nil id, nil owner, empty content, nil reply-to, zero time |
| PartialUpdate.PrepareUpdate | backend/book/api.go:203-233 | the id must be a decodable string, otherwise the edit is rejected; the `$set` fields are exactly the non-empty entries of the payload, values unchanged, plus the decoded id |
| PartialUpdate.ApplyBookSet | backend/book/api.go:236-242 | a `$set` naming no stored lower-case book field leaves the book unchanged; the id entry sets the id; the notes change only when nulled, and then become empty |
| PartialUpdate.ApplyNoteSet | backend/book/api.go:401-407 | a `$set` naming no stored lower-case note field leaves the note unchanged; the id entry sets the id; a null `bookid` clears the owner, an absent one keeps it |
| PartialUpdate.BookEditSemantics | backend/book/api.go:228-242 | an edit sets each non-empty text field and a numeric status, leaves fields given as `""` alone, and clears each field the payload nulls, notes and times included |
| PartialUpdate.NoteEditSemantics | backend/book/api.go:394-407 | a note edit sets the content only when it is non-empty, and clears each field the payload nulls, the owner included |
| BookApi.ListBook | backend/book/api.go:59-107 | a listing never changes the store and issues one find with the built filter; on success it returns the books matching every non-empty title and author, and none at all when a status is given |
| BookApi.GetBook | backend/book/api.go:114-139 | a malformed id makes no store call; otherwise the book is returned exactly when it is stored with a non-nil id, and "not found" is reported when it is not |
| BookApi.AddBook | backend/book/api.go:146-163 | a successful create stores the payload under the fresh id with an empty note list and changes no other document; a failed insert changes nothing |
| BookApi.DeleteBook | backend/book/api.go:168-195 | a failed bulk note delete changes nothing and is the only call; otherwise every note of the book is gone, and the book is removed only if its own delete succeeds, with no rollback if it fails |
| BookApi.EditBook | backend/book/api.go:201-255 | an invalid id changes nothing and makes no call; one find-and-update with the selected fields changes only the matched book and returns it as it was before |
| NoteApi.ListNoteByBook | backend/book/api.go:260-288 | an invalid id or a missing book is an error; otherwise one lookup per listed id, in order, each giving the stored note or a zero note |
| NoteApi.ListNoteByBookLoop | backend/book/api.go:278-285 | the handler's append loop yields exactly the listing defined by `ListNoteByBook` |
| NoteApi.GetNote | backend/book/api.go:292-315 | a malformed id makes no store call; otherwise the note is returned exactly when it is stored with a non-nil id |
| NoteApi.AddNote | backend/book/api.go:319-348 | the push comes first and its failure changes nothing; an insert failure triggers the compensation and adds no note; success appends the id to an existing book, leaving its other fields and every other book alone, and stores the note; a successful compensation detaches the id again |
| NoteApi.DeleteNote | backend/book/api.go:352-379 | the lookup comes first, then the detach; the note document is deleted only after a successful detach, and a failed detach changes nothing; a successful detach removes the id from the owner's list, keeping its other ids and fields and every other book |
| NoteApi.EditNote | backend/book/api.go:381-414 | an invalid id changes nothing; an update changes only the matched note, never a book, and the count is 1 exactly when the note's typed fields changed |
| Properties.InvalidIdTouchesNothing | backend/book/api.go:119-124 | each of the six handlers that decode an id rejects a malformed one with no store call and no change |
| Properties.AddBookKeepsValid | backend/book/api.go:151-155 | creating a book under a fresh id keeps the store invariant |
| Properties.AddBookThenGetBook | backend/book/api.go:152-162 | a created book can be fetched back by the id text the create returned |
| Properties.FreshIdUnreferenced | backend/book/api.go:323 | in a consistent store no book lists a freshly minted note id |
| Properties.AddNoteKeepsValid | backend/book/api.go:319-348 | AddNote keeps the invariant unless both the insert and its compensation fail |
| Properties.AddNoteReferencedOnce | backend/book/api.go:326-346 | after a successful create the id occurs exactly once in its book's list and in no other, and the note names that book as its owner |
| Properties.AddNoteCompensationRestores | backend/book/api.go:336-344 | an insert failure followed by a successful compensation leaves the store exactly as before, and the insert error is reported |
| Properties.AddNoteCompensationFailureDangles | backend/book/api.go:336-344 | if the compensation also fails, the book lists an id with no note |
| Properties.DeleteNoteKeepsValid | backend/book/api.go:352-379 | after a successful lookup, DeleteNote keeps the invariant, and after a successful detach no book lists the note |
| Properties.DetachBeforeDelete | backend/book/api.go:363-378 | a note document disappears only as the third call, after the detach; a failed detach leaves it in place |
| Properties.DeleteNoteKeepsOrder | backend/book/api.go:363-378 | deleting a note its book lists once leaves the book's other notes in their original order |
| Properties.DeleteNoteLookupFailureDangles | backend/book/api.go:357-371 | since the lookup is unchecked, a failed lookup followed by a detach reported successful deletes a note that its book still lists |
| Properties.DeleteBookCascade | backend/book/api.go:178-194 | a completed delete of a stored book, with or without notes, removes it and all its notes, keeps the invariant, and neither the book nor any note it listed can be fetched afterwards |
| Properties.DeleteBookPartialFailureDangles | backend/book/api.go:185-192 | if the book's own delete fails after the notes went, the book lists notes that no longer exist |
| Properties.EditBookKeepsValid | backend/book/api.go:228-242 | book edits keep the store invariant, a nulled note list included |
| Properties.EditNoteKeepsValid | backend/book/api.go:394-407 | note edits that do not null or re-point the owner keep the store invariant |
| Properties.EditNoteNullOwnerDangles | backend/book/api.go:394-407 | a note edit with `bookid: null` clears the owner of a listed note and breaks the invariant |
| Properties.EditBookSetsGivenFields | backend/book/api.go:228-254 | after an edit each text field holds the payload's string if non-empty, is cleared if nulled, and keeps its old value otherwise |
| Properties.ListedNotesBelongToBook | backend/book/api.go:278-285 | in a valid store with every lookup succeeding, the listing is exactly the book's notes, in its order, each owned by the book |
| Properties.AddNoteThenList | backend/book/api.go:319-346 | a note added to a book appears at the end of the book's listing, after the notes listed before |
| Properties.CreateAttachDeleteScenario | backend/book/api.go:146-379 | create a book, attach a note, delete it: the book lists exactly that note in between and none after, and the note is gone |

## Left out

- HTTP routing and request binding (`NewService`, `ShouldBindJSON`, `PostForm`, `Query`, `Param`). Handlers take already-bound inputs. An id in a JSON body is bound by the driver's JSON decoding, not by `ObjectIDFromHex`, so `DeleteNote` takes whatever `Id` was bound.
- Response envelopes (`util.ResponseSuccess` and `ResponseError`) and all logging. These only shape output.
- The `transaction` demo handler. It exercises driver sessions and has no domain logic.
- MongoDB itself: query language, write and read concerns, contexts. Every store call is a map operation plus one success flag.
- A failing `cursor.All` in `ListBook` is folded into the single `findOk` flag.
- A failing `DeleteMany` is modelled as all-or-nothing. A partial bulk delete is not represented.
- `time.Now()` and `primitive.NewObjectID()` become parameters. Freshness of the new id is a precondition of the lemmas, not of the handlers.
- Concurrent requests and lost updates on a book's `notes`. The code has no concurrency control to verify.
- The order of a `ListBook` result. It is the store's native order, so the model returns a set.
- Arrays and objects as values of an edit payload, and `$set` entries the typed documents cannot show. Examples: a `notes` array; a JSON-string `startTime` or `bookid`; a string for `status`; keys that name no field under any letter case. MongoDB would store these verbatim, except dotted keys, which it reads as paths (next line). The model's typed documents ignore them. Keys that match a field only up to letter case are not ignored by the code; see the `PartialUpdate.ApplyBookSet` line. A null on a stored field is modelled: it clears the field.
- Properties.EditBookKeepsValid: dotted `$set` keys such as `notes.0` are not modelled. MongoDB reads them as paths into the stored document, so `{"notes.0": null}` writes null into the first slot of the list, which decodes as the nil id. The book then lists an id with no note, which breaks the invariant in the code. The model treats such keys as invisible.
- PartialUpdate.ApplyBookSet: a `$set` key that matches a field only up to letter case, such as the JSON name `startTime` or `endTime`, is not modelled. MongoDB stores it as a separate key after the lower-case one. The driver's decoder falls back to a lower-case match for an unknown name and lets the later element win. So in the code such a key changes the decoded book, and it keeps overriding the stored lower-case field on later decodes. The model's typed store holds no raw document that could carry the extra key, so it leaves the book unchanged.
- PartialUpdate.ApplyNoteSet: as for books, a `$set` of `bookID`, `replyTo`, `createTime` or another case variant of a note field is not modelled. In the code it changes the decoded note; in the model it is invisible.
- PartialUpdate.NoteEditSemantics: a case-variant key such as `bookID: null` clears the decoded owner in the code, while the stored `bookid`, and with it the cascade, still names the book. The lemma covers only the lower-case names and keeps the owner.
- PartialUpdate.BookEditSemantics: case-variant keys such as `startTime: null` are not modelled, as for `ApplyBookSet`. JSON numbers bind as float64, but the model's `Number` holds integers. A fractional `status`, which would be stored as a double, is not represented.
- NoteApi.EditNote: the modified count is judged on the typed view. An update that changes only entries the typed view ignores counts 0 in the model, though MongoDB reports 1.
- Properties.EditNoteKeepsValid: payloads that null `bookid` are excluded; `Properties.EditNoteNullOwnerDangles` shows they break the invariant. A JSON-string `bookid` would also detach the note from its book's cascade, but the typed view ignores it. A case-variant key such as `bookID: null` is also invisible to the model. In the code it makes every decode see a nil owner, so a later `DeleteNote` detaches from the nil id and deletes a note its book still lists.
- ListFilter.ParseInt: does not model `strconv.Atoi`'s 64-bit range error. Statuses are small.
- Per-note lookup failures while listing a book's notes are given as a set of positions (`failing`). They are indistinguishable from misses, as in the code.
- `deleteNote`, `getBook` and `strIdToPrimitive` are not part of this model. Their assumed behaviour is stated above.

## Findings

| source | as written | input that shows it | evidently intended | confidence | as-written member | corrected member |
|---|---|---|---|---|---|---|
| backend/book/api.go:64-76 | the `status` query parameter goes into the filter as a string, but books store `status` as an integer, and MongoDB equality never matches a string against a number | a stored book with status 1 and the request `GET /book?status=1` (also shown by `ListFilter.StatusFilterCounterexample`) | `status=1` lists the books whose status is 1 | not executed; high | ListFilter.StatusFilterMatchesNothing | ListFilter.SelectByStatus |

`BookApi.ListBook` models the code as written. The corrected comparison is `ListFilter.Select`, with `ListFilter.SelectMeaning` and `ListFilter.SelectByStatus` proved about it.

=== FILE: book_api.dfy ===
/** The book handlers: each is a transition from a store, the request's
    inputs and the outcome of each store call to a Reply. */
module BookApi {
  import opened Wrappers
  import opened ObjectId
  import opened Model
  import opened ListFilter
  import opened PartialUpdate

  /** ListBook: one `Find` with the filter built from the query parameters.
      The `status` condition is a string, which never equals a stored integer
      status, so any non-empty `status` yields an empty listing. */
  function ListBook(st: Store, title: string, author: string, status: string, findOk: bool): (r: Reply<set<Book>>)
    ensures r.store == st
    ensures r.calls == [FindBooks(BuildFilter(title, author, status))]
    ensures r.result.Ok? <==> findOk
    ensures r.result.Err? ==> r.result.error == StoreError
    ensures r.result.Ok? ==> forall b :: b in r.result.value <==>
      && b in st.books.Values
      && status == ""
      && (title == "" || b.title == title)
      && (author == "" || b.author == author)
  {
    var filter := BuildFilter(title, author, status);
    var result: Result<set<Book>, Error> := if findOk then Ok(SelectAsWritten(st.books, filter)) else Err(StoreError);
    assert result.Ok? ==> forall b :: b in result.value <==>
      && b in st.books.Values
      && status == ""
      && (title == "" || b.title == title)
      && (author == "" || b.author == author) by {
      forall b {
        SelectAsWrittenMeaning(st.books, title, author, status, b);
      }
    }
    Reply(st, [FindBooks(filter)], result)
  }

  /** GetBook: decode the path id, look the book up, report a zero-valued
      (nil-id) result as missing. */
  function GetBook(st: Store, idText: string, findOk: bool): (r: Reply<Book>)
    ensures r.store == st
    ensures Decode(idText).None? ==> r.calls == [] && r.result == Err(InvalidId)
    ensures Decode(idText).Some? ==> r.calls == [FindOneBook(Decode(idText).value)]
    ensures r.result.Ok? <==>
      && Decode(idText).Some? && findOk
      && Decode(idText).value in st.books && st.books[Decode(idText).value].id != Nil
    ensures r.result.Ok? ==> r.result.value == st.books[Decode(idText).value]
    ensures r.result.Err? && Decode(idText).Some? ==> r.result.error == NotFound
  {
    match Decode(idText)
    case None => Reply(st, [], Err(InvalidId))
    case Some(oid) =>
      var book := FindBook(st, oid, findOk);
      Reply(st, [FindOneBook(oid)], if book.id == Nil then Err(NotFound) else Ok(book))
  }

  /** The document AddBook inserts: the payload with a fresh id and no notes. */
  function NewBook(input: Book, freshId: Id): Book {
    input.(id := freshId, notes := [])
  }

  /** AddBook: insert the payload under the freshly minted `freshId`. */
  function AddBook(st: Store, input: Book, freshId: Id, insertOk: bool): (r: Reply<Id>)
    ensures r.calls == [InsertOneBook(freshId)]
    ensures r.store.notes == st.notes
    ensures !insertOk ==> r.store == st && r.result == Err(StoreError)
    ensures insertOk ==> r.result == Ok(freshId)
    ensures insertOk ==>
      && freshId in r.store.books
      && r.store.books[freshId].id == freshId
      && r.store.books[freshId].notes == []
      && r.store.books[freshId].title == input.title
      && r.store.books[freshId].author == input.author
      && r.store.books[freshId].status == input.status
      && r.store.books[freshId].description == input.description
      && r.store.books[freshId].startTime == input.startTime
      && r.store.books[freshId].endTime == input.endTime
    ensures r.store.books - {freshId} == st.books - {freshId}
  {
    var calls := [InsertOneBook(freshId)];
    if insertOk then Reply(st.(books := st.books[freshId := NewBook(input, freshId)]), calls, Ok(freshId))
    else Reply(st, calls, Err(StoreError))
  }

  /** The note collection after `DeleteMany` on `bookid == bookId`. */
  function NotesNotOf(notes: map<Id, Note>, bookId: Id): (r: map<Id, Note>)
    ensures forall k :: k in r <==> k in notes && notes[k].bookId != bookId
    ensures forall k :: k in r ==> r[k] == notes[k]
  {
    map k | k in notes && notes[k].bookId != bookId :: notes[k]
  }

  /** DeleteBook: delete the book's notes in bulk, then the book itself; a
      failure of the second step leaves the notes deleted. */
  function DeleteBook(st: Store, idText: string, deleteNotesOk: bool, deleteBookOk: bool): (r: Reply<nat>)
    ensures Decode(idText).None? ==> r.store == st && r.calls == [] && r.result == Err(InvalidId)
    ensures Decode(idText).Some? ==> |r.calls| >= 1 && r.calls[0] == DeleteManyNotes(Decode(idText).value)
    ensures !deleteNotesOk ==> r.store == st && r.result.Err?
    ensures Decode(idText).Some? && !deleteNotesOk ==> r.calls == [DeleteManyNotes(Decode(idText).value)]
    ensures Decode(idText).Some? && deleteNotesOk ==>
      var oid := Decode(idText).value;
      && r.calls == [DeleteManyNotes(oid), DeleteOneBook(oid)]
      && (forall k :: k in r.store.notes <==> k in st.notes && st.notes[k].bookId != oid)
      && (forall k :: k in r.store.notes ==> r.store.notes[k] == st.notes[k])
      && r.store.books == (if deleteBookOk then st.books - {oid} else st.books)
    ensures r.result.Ok? <==> Decode(idText).Some? && deleteNotesOk && deleteBookOk
    ensures r.result.Ok? ==> r.result.value == (if Decode(idText).value in st.books then 1 else 0)
    ensures r.result.Err? && Decode(idText).Some? ==> r.result.error == StoreError
  {
    match Decode(idText)
    case None => Reply(st, [], Err(InvalidId))
    case Some(oid) =>
      if !deleteNotesOk then Reply(st, [DeleteManyNotes(oid)], Err(StoreError))
      else
        var cascaded := st.(notes := NotesNotOf(st.notes, oid));
        var calls := [DeleteManyNotes(oid), DeleteOneBook(oid)];
        if !deleteBookOk then Reply(cascaded, calls, Err(StoreError))
        else Reply(cascaded.(books := cascaded.books - {oid}), calls, Ok(if oid in st.books then 1 else 0))
  }

  /** EditBook: `FindOneAndUpdate` with the selected fields; the reply carries
      the document as it was before the update (the driver's default). */
  function EditBook(st: Store, fields: map<string, Value>, updateOk: bool): (r: Reply<Book>)
    ensures r.store.notes == st.notes
    ensures PrepareUpdate(fields).Err? ==> r.store == st && r.calls == [] && r.result == Err(InvalidId)
    ensures PrepareUpdate(fields).Ok? ==>
      var u := PrepareUpdate(fields).value;
      && r.calls == [FindOneAndUpdateBook(u.id, u.changes)]
      && (r.result.Ok? <==> updateOk && u.id in st.books)
      && (!updateOk ==> r.result == Err(StoreError))
      && (updateOk && u.id !in st.books ==> r.result == Err(NotFound))
      && (r.result.Err? ==> r.store == st)
      && (r.result.Ok? ==> r.result.value == st.books[u.id])
      && r.store.books - {u.id} == st.books - {u.id}
    ensures r.result.Ok? ==>
      var u := PrepareUpdate(fields).value;
      && u.id in r.store.books
      && r.store.books[u.id] == ApplyBookSet(st.books[u.id], u.changes)
  {
    match PrepareUpdate(fields)
    case Err(e) => Reply(st, [], Err(e))
    case Ok(u) =>
      var calls := [FindOneAndUpdateBook(u.id, u.changes)];
      if !updateOk then Reply(st, calls, Err(StoreError))
      else if u.id !in st.books then Reply(st, calls, Err(NotFound))
      else Reply(st.(books := st.books[u.id := ApplyBookSet(st.books[u.id], u.changes)]), calls, Ok(st.books[u.id]))
  }
}

=== FILE: list_filter.dfy ===
/** The filter ListBook builds from its query parameters, and what it selects. */
module ListFilter {
  import opened Wrappers
  import opened ObjectId
  import opened Model

  /** ListBook's filter: one exact-match condition per non-empty parameter among
      `title`, `author` and `status`; match-all when every one is empty. */
  function BuildFilter(title: string, author: string, status: string): (f: Filter)
    ensures f.MatchAll? <==> title == "" && author == "" && status == ""
    ensures f.Conjunction? ==> f.entries.Keys <= {"title", "author", "status"}
    ensures f.Conjunction? ==>
      && ("title" in f.entries <==> title != "")
      && ("author" in f.entries <==> author != "")
      && ("status" in f.entries <==> status != "")
    ensures f.Conjunction? && title != "" ==> f.entries["title"] == title
    ensures f.Conjunction? && author != "" ==> f.entries["author"] == author
    ensures f.Conjunction? && status != "" ==> f.entries["status"] == status
  {
    var query := map["title" := title, "author" := author, "status" := status];
    var entries := map k | k in query && query[k] != "" :: query[k];
    assert title != "" ==> "title" in entries;
    assert author != "" ==> "author" in entries;
    assert status != "" ==> "status" in entries;
    if entries.Keys == {} then MatchAll else Conjunction(entries)
  }

  // ---- Decimal text, for the `status` condition ----

  predicate IsDigit(c: char) {
    '0' <= c <= '9'
  }

  predicate AllDigits(s: string) {
    forall i :: 0 <= i < |s| ==> IsDigit(s[i])
  }

  /** The value of a string of decimal digits, most significant first. */
  function DigitsValue(s: string): nat
    requires AllDigits(s)
    decreases |s|
  {
    if |s| == 0 then 0 else 10 * DigitsValue(s[..|s| - 1]) + (s[|s| - 1] as int - '0' as int)
  }

  /** Go's `strconv.Atoi`: an optional sign followed by at least one digit. */
  function ParseInt(s: string): Option<int> {
    if |s| > 0 && (s[0] == '+' || s[0] == '-') then
      if |s| > 1 && AllDigits(s[1..]) then
        var magnitude: int := DigitsValue(s[1..]);
        Some(if s[0] == '-' then -magnitude else magnitude)
      else None
    else if |s| > 0 && AllDigits(s) then Some(DigitsValue(s))
    else None
  }

  /** Go's `strconv.Itoa` on a non-negative number. */
  function ShowNat(n: nat): (s: string)
    ensures |s| > 0 && AllDigits(s)
  {
    if n < 10 then [('0' as int + n) as char]
    else ShowNat(n / 10) + [('0' as int + n % 10) as char]
  }

  /** Go's `strconv.Itoa`. */
  function ShowInt(n: int): string {
    if n < 0 then "-" + ShowNat(-n) else ShowNat(n)
  }

  lemma {:induction false} DigitsValueShowNat(n: nat)
    ensures DigitsValue(ShowNat(n)) == n
  {
    if n >= 10 {
      var s := ShowNat(n);
      DigitsValueShowNat(n / 10);
      assert s[..|s| - 1] == ShowNat(n / 10);
    }
  }

  /** Printing a number and parsing it back yields the number. */
  lemma ParseShowInt(n: int)
    ensures ParseInt(ShowInt(n)) == Some(n)
  {
    if n < 0 {
      DigitsValueShowNat(-n);
      assert ShowInt(n)[1..] == ShowNat(-n);
    } else {
      DigitsValueShowNat(n);
    }
  }

  // ---- Selection as the code issues it ----

  /** One exact-match condition under MongoDB's typed equality, as the handler
      issues it: every condition value is a string, and `status` is stored as an
      integer, so a string condition on it equals nothing. */
  predicate FieldEqualsAsWritten(b: Book, key: string, v: string) {
    if key == "title" then b.title == v
    else if key == "author" then b.author == v
    else false
  }

  predicate MatchesAsWritten(b: Book, f: Filter) {
    match f
    case MatchAll => true
    case Conjunction(entries) => forall k :: k in entries ==> FieldEqualsAsWritten(b, k, entries[k])
  }

  /** The books the handler's `Find` returns, in no particular order. */
  function SelectAsWritten(books: map<Id, Book>, f: Filter): (r: set<Book>)
    ensures forall b :: b in r ==> b in books.Values && MatchesAsWritten(b, f)
    ensures forall k :: k in books && MatchesAsWritten(books[k], f) ==> books[k] in r
    ensures f.MatchAll? ==> r == books.Values
  {
    set k | k in books && MatchesAsWritten(books[k], f) :: books[k]
  }

  /** As written, any non-empty `status` parameter makes the listing empty. */
  lemma StatusFilterMatchesNothing(books: map<Id, Book>, title: string, author: string, status: string)
    requires status != ""
    ensures SelectAsWritten(books, BuildFilter(title, author, status)) == {}
  {
  }

  /** As written, a listing returns exactly the stored books that agree with
      every non-empty title and author parameter, and only when no status is
      given. */
  lemma SelectAsWrittenMeaning(books: map<Id, Book>, title: string, author: string, status: string, b: Book)
    ensures b in SelectAsWritten(books, BuildFilter(title, author, status)) <==>
      && b in books.Values
      && status == ""
      && (title == "" || b.title == title)
      && (author == "" || b.author == author)
  {
    if status != "" {
      StatusFilterMatchesNothing(books, title, author, status);
    }
  }

  /** A book with status 1 is not listed for `status=1` as written, and is
      listed under the corrected comparison. */
  lemma StatusFilterCounterexample()
    ensures var b := ZeroBook.(status := 1);
      && SelectAsWritten(map[Nil := b], BuildFilter("", "", "1")) == {}
      && Select(map[Nil := b], BuildFilter("", "", "1")) == {b}
  {
    var b := ZeroBook.(status := 1);
    var books := map[Nil := b];
    StatusFilterMatchesNothing(books, "", "", "1");
    assert ParseInt("1") == Some(1) by {
      assert DigitsValue("1"[..0]) == 0;
    }
    assert books[Nil] == b;
    SelectMeaning(books, "", "", "1", b);
    assert Select(books, BuildFilter("", "", "1")) <= {b};
  }

  // ---- Selection with the status condition read as a number ----

  /** One exact-match condition with the `status` text read as the number it
      spells, the comparison the listing evidently intends. */
  predicate FieldEquals(b: Book, key: string, v: string) {
    if key == "title" then b.title == v
    else if key == "author" then b.author == v
    else if key == "status" then ParseInt(v) == Some(b.status)
    else false
  }

  predicate Matches(b: Book, f: Filter) {
    match f
    case MatchAll => true
    case Conjunction(entries) => forall k :: k in entries ==> FieldEquals(b, k, entries[k])
  }

  /** The books a `Find` with filter `f` returns, in no particular order. */
  function Select(books: map<Id, Book>, f: Filter): set<Book> {
    set k | k in books && Matches(books[k], f) :: books[k]
  }

  /** A listing returns exactly the stored books that agree with every
      non-empty parameter. */
  lemma SelectMeaning(books: map<Id, Book>, title: string, author: string, status: string, b: Book)
    ensures b in Select(books, BuildFilter(title, author, status)) <==>
      && b in books.Values
      && (title == "" || b.title == title)
      && (author == "" || b.author == author)
      && (status == "" || ParseInt(status) == Some(b.status))
  {
  }

  /** Listing by a printed status returns exactly the books with that status. */
  lemma SelectByStatus(books: map<Id, Book>, n: int, b: Book)
    ensures b in Select(books, BuildFilter("", "", ShowInt(n))) <==> b in books.Values && b.status == n
  {
    ParseShowInt(n);
    assert ShowInt(n) != "" by {
      if n < 0 { assert |ShowInt(n)| == 1 + |ShowNat(-n)|; }
    }
    SelectMeaning(books, "", "", ShowInt(n), b);
  }
}

=== FILE: model.dfy ===
/** The entities of the reading tracker, the two-collection store they live
    in, and the vocabulary handlers use to report what they did. */
module Model {
  import opened Wrappers
  import opened ObjectId

  /** An opaque instant (Go's `time.Time`); the model only compares instants. */
  type Time = int

  /** The zero instant of an unset time field. */
  const ZeroTime: Time := 0

  /** A book document; `notes` lists the identifiers of its notes in the order
      they were attached. */
  datatype Book = Book(
    id: Id,
    title: string,
    author: string,
    status: int,
    startTime: Time,
    endTime: Time,
    notes: seq<Id>,
    description: string)

  /** A note document, owned by the book `bookId`. */
  datatype Note = Note(
    id: Id,
    bookId: Id,
    content: string,
    replyTo: Id,
    createTime: Time)

  /** What decoding a missed lookup leaves behind: every field at its zero value. */
  const ZeroBook: Book := Book(Nil, "", "", 0, ZeroTime, ZeroTime, [], "")
  const ZeroNote: Note := Note(Nil, Nil, "", Nil, ZeroTime)

  /** The "book" and "note" collections, each keyed by its documents' `id` field. */
  datatype Store = Store(books: map<Id, Book>, notes: map<Id, Note>)

  /** Errors a handler reports. */
  datatype Error =
    | InvalidId     // an identifier text that does not decode
    | NotFound      // no document with the requested id
    | DetachFailed  // removing a note from its book's list did not succeed
    | StoreError    // any failure reported by a store call

  /** A value of a JSON-bound field map (`map[string]interface{}`); JSON numbers
      are kept as integers, arrays and objects are not modelled. */
  datatype Value = Str(s: string) | Number(n: int) | Boolean(b: bool) | Null | Oid(id: Id)

  /** The filter of a book listing: match every document, or a conjunction of
      exact-match field conditions. */
  datatype Filter = MatchAll | Conjunction(entries: map<string, string>)

  /** A call a handler issues to the store, in issue order. */
  datatype Call =
    | FindBooks(filter: Filter)
    | FindOneBook(bookId: Id)
    | InsertOneBook(bookId: Id)
    | DeleteOneBook(bookId: Id)
    | FindOneAndUpdateBook(bookId: Id, changes: map<string, Value>)
    | FindOneNote(noteId: Id)
    | InsertOneNote(noteId: Id)
    | DeleteOneNote(noteId: Id)
    | DeleteManyNotes(bookId: Id)
    | UpdateOneNote(noteId: Id, changes: map<string, Value>)
    | PushNoteRef(bookId: Id, noteId: Id)     // `$push` onto a book's `notes`
    | RemoveNoteRef(bookId: Id, noteId: Id)   // the `deleteNote` helper

  /** What a handler leaves behind: the store, the calls it made, its answer. */
  datatype Reply<+T> = Reply(store: Store, calls: seq<Call>, result: Result<T, Error>)

  /** Every document is stored under its own `id`. */
  predicate WellKeyed(st: Store) {
    && (forall k :: k in st.books ==> st.books[k].id == k)
    && (forall k :: k in st.notes ==> st.notes[k].id == k)
  }

  /** Every note a book lists exists and names that book as its owner. */
  predicate Consistent(st: Store) {
    forall k, n :: k in st.books && n in st.books[k].notes ==> n in st.notes && st.notes[n].bookId == k
  }

  /** The store invariant the handlers are meant to keep. */
  predicate Valid(st: Store) {
    WellKeyed(st) && Consistent(st)
  }

  /** `FindOne` on the book collection followed by `Decode`: a miss or a failed
      call leaves the zero value, since the decode error is ignored. */
  function FindBook(st: Store, id: Id, ok: bool): (r: Book)
    ensures ok && id in st.books ==> r == st.books[id]
    ensures r.id != Nil ==> ok && id in st.books && r == st.books[id]
    ensures !(ok && id in st.books) ==> r == ZeroBook
  {
    if ok && id in st.books then st.books[id] else ZeroBook
  }

  /** `FindOne` on the note collection followed by `Decode`, as for books. */
  function FindNote(st: Store, id: Id, ok: bool): (r: Note)
    ensures ok && id in st.notes ==> r == st.notes[id]
    ensures r.id != Nil ==> ok && id in st.notes && r == st.notes[id]
    ensures !(ok && id in st.notes) ==> r == ZeroNote
  {
    if ok && id in st.notes then st.notes[id] else ZeroNote
  }
}

=== FILE: note_api.dfy ===
/** The note handlers, each a transition from a store, the request's inputs
    and the outcome of each store call to a Reply. */
module NoteApi {
  import opened Wrappers
  import opened ObjectId
  import opened Model
  import opened NoteRefs
  import opened PartialUpdate

  /** One `FindOne` per referenced note, in the book's order. */
  function NoteLookups(refs: seq<Id>): seq<Call> {
    seq(|refs|, i requires 0 <= i < |refs| => FindOneNote(refs[i]))
  }

  /** The decoded result of looking up the note at position `i` of `refs`:
      the stored note, or the zero note when the lookup misses or fails
      (positions in `failing`). */
  function Resolved(notes: map<Id, Note>, refs: seq<Id>, failing: set<nat>, i: nat): Note
    requires i < |refs|
  {
    if i !in failing && refs[i] in notes then notes[refs[i]] else ZeroNote
  }

  /** ListNoteByBook: decode the id, load the book, then resolve each of its
      note references in order, with a zero note for any that is missing. */
  function ListNoteByBook(st: Store, idText: string, bookFindOk: bool, failing: set<nat>): (r: Reply<seq<Note>>)
    ensures r.store == st
    ensures Decode(idText).None? ==> r.calls == [] && r.result == Err(InvalidId)
    ensures Decode(idText).Some? ==> |r.calls| >= 1 && r.calls[0] == FindOneBook(Decode(idText).value)
    ensures r.result.Ok? <==>
      && Decode(idText).Some? && bookFindOk
      && Decode(idText).value in st.books && st.books[Decode(idText).value].id != Nil
    ensures r.result.Err? && Decode(idText).Some? ==> r.result.error == NotFound && |r.calls| == 1
    ensures r.result.Ok? ==>
      var refs := st.books[Decode(idText).value].notes;
      && |r.result.value| == |refs|
      && |r.calls| == 1 + |refs|
      && (forall i :: 0 <= i < |refs| ==> r.calls[i + 1] == FindOneNote(refs[i]))
      && (forall i :: 0 <= i < |refs| ==> r.result.value[i] == Resolved(st.notes, refs, failing, i))
  {
    match Decode(idText)
    case None => Reply(st, [], Err(InvalidId))
    case Some(oid) =>
      var book := FindBook(st, oid, bookFindOk);
      if book.id == Nil then Reply(st, [FindOneBook(oid)], Err(NotFound))
      else
        var refs := book.notes;
        Reply(st, [FindOneBook(oid)] + NoteLookups(refs),
              Ok(seq(|refs|, i requires 0 <= i < |refs| => Resolved(st.notes, refs, failing, i))))
  }

  /** ListNoteByBook as the handler runs it: a loop appending one decoded
      lookup per reference. */
  method ListNoteByBookLoop(st: Store, idText: string, bookFindOk: bool, failing: set<nat>) returns (r: Reply<seq<Note>>)
    ensures r == ListNoteByBook(st, idText, bookFindOk, failing)
  {
    var decoded := Decode(idText);
    if decoded.None? {
      return Reply(st, [], Err(InvalidId));
    }
    var oid := decoded.value;
    var book := FindBook(st, oid, bookFindOk);
    if book.id == Nil {
      return Reply(st, [FindOneBook(oid)], Err(NotFound));
    }
    var refs := book.notes;
    var notes: seq<Note> := [];
    var lookups: seq<Call> := [];
    var i := 0;
    while i < |refs|
      invariant 0 <= i <= |refs|
      invariant |notes| == i && |lookups| == i
      invariant forall j :: 0 <= j < i ==> notes[j] == Resolved(st.notes, refs, failing, j)
      invariant forall j :: 0 <= j < i ==> lookups[j] == FindOneNote(refs[j])
    {
      var note := FindNote(st, refs[i], i !in failing);
      lookups := lookups + [FindOneNote(refs[i])];
      notes := notes + [note];
      i := i + 1;
    }
    assert lookups == NoteLookups(refs);
    assert notes == seq(|refs|, j requires 0 <= j < |refs| => Resolved(st.notes, refs, failing, j));
    r := Reply(st, [FindOneBook(oid)] + lookups, Ok(notes));
  }

  /** GetNote: decode the path id, look the note up, report a zero-valued
      (nil-id) result as missing. */
  function GetNote(st: Store, idText: string, findOk: bool): (r: Reply<Note>)
    ensures r.store == st
    ensures Decode(idText).None? ==> r.calls == [] && r.result == Err(InvalidId)
    ensures Decode(idText).Some? ==> r.calls == [FindOneNote(Decode(idText).value)]
    ensures r.result.Ok? <==>
      && Decode(idText).Some? && findOk
      && Decode(idText).value in st.notes && st.notes[Decode(idText).value].id != Nil
    ensures r.result.Ok? ==> r.result.value == st.notes[Decode(idText).value]
    ensures r.result.Err? && Decode(idText).Some? ==> r.result.error == NotFound
  {
    match Decode(idText)
    case None => Reply(st, [], Err(InvalidId))
    case Some(oid) =>
      var note := FindNote(st, oid, findOk);
      Reply(st, [FindOneNote(oid)], if note.id == Nil then Err(NotFound) else Ok(note))
  }

  /** The document AddNote inserts: the payload with a fresh id and the
      creation time. */
  function NewNote(input: Note, freshId: Id, now: Time): Note {
    input.(id := freshId, createTime := now)
  }

  /** AddNote: push the new id onto the owning book's `notes`, then insert the
      note; if the insert fails, detach the id again and report the insert's
      failure whatever the detach did. */
  function AddNote(st: Store, input: Note, freshId: Id, now: Time, pushOk: bool, insertOk: bool, detachOk: bool): (r: Reply<Id>)
    ensures |r.calls| >= 1 && r.calls[0] == PushNoteRef(input.bookId, freshId)
    ensures !pushOk ==> r.store == st && |r.calls| == 1 && r.result == Err(StoreError)
    ensures pushOk ==> |r.calls| >= 2 && r.calls[1] == InsertOneNote(freshId)
    ensures r.result.Ok? <==> pushOk && insertOk
    ensures r.result.Ok? ==>
      && r.result.value == freshId
      && |r.calls| == 2
      && r.store.notes == st.notes[freshId := NewNote(input, freshId, now)]
    ensures pushOk && !insertOk ==>
      && r.calls == [PushNoteRef(input.bookId, freshId), InsertOneNote(freshId), RemoveNoteRef(input.bookId, freshId)]
      && r.store.notes == st.notes
      && r.result == Err(StoreError)
    ensures r.store.books.Keys == st.books.Keys
    ensures pushOk && input.bookId in st.books && (insertOk || !detachOk) ==>
      r.store.books[input.bookId] == st.books[input.bookId].(notes := st.books[input.bookId].notes + [freshId])
    ensures pushOk && input.bookId in st.books && !insertOk && detachOk ==>
      r.store.books[input.bookId] == st.books[input.bookId].(notes := Without(st.books[input.bookId].notes + [freshId], freshId))
    ensures input.bookId !in st.books ==> r.store.books == st.books
    ensures r.store.books - {input.bookId} == st.books - {input.bookId}
  {
    var bookId := input.bookId;
    var push := PushNoteRef(bookId, freshId);
    if !pushOk then Reply(st, [push], Err(StoreError))
    else
      var pushed := Push(st, bookId, freshId);
      if insertOk then
        Reply(pushed.(notes := pushed.notes[freshId := NewNote(input, freshId, now)]),
              [push, InsertOneNote(freshId)], Ok(freshId))
      else
        Reply(Detach(pushed, bookId, freshId, detachOk),
              [push, InsertOneNote(freshId), RemoveNoteRef(bookId, freshId)], Err(StoreError))
  }

  /** The owner DeleteNote learns from its lookup: nil when the lookup misses
      or fails, since the handler does not check it. */
  function OwnerOf(st: Store, id: Id, findOk: bool): Id {
    FindNote(st, id, findOk).bookId
  }

  /** DeleteNote: look up the note's owner, detach the note from it, and
      delete the note document only once the detach has succeeded. */
  function DeleteNote(st: Store, id: Id, findOk: bool, detachOk: bool, deleteOk: bool): (r: Reply<nat>)
    ensures |r.calls| >= 2 && r.calls[0] == FindOneNote(id) && r.calls[1] == RemoveNoteRef(OwnerOf(st, id, findOk), id)
    ensures !findOk || id !in st.notes ==> r.calls[1] == RemoveNoteRef(Nil, id)
    ensures !detachOk ==> r.store == st && |r.calls| == 2 && r.result == Err(DetachFailed)
    ensures detachOk ==> r.calls == [FindOneNote(id), RemoveNoteRef(OwnerOf(st, id, findOk), id), DeleteOneNote(id)]
    ensures r.store.notes == (if detachOk && deleteOk then st.notes - {id} else st.notes)
    ensures id in st.notes && id !in r.store.notes ==> detachOk && deleteOk
    ensures r.store.books.Keys == st.books.Keys
    ensures detachOk && OwnerOf(st, id, findOk) in st.books ==>
      && id !in r.store.books[OwnerOf(st, id, findOk)].notes
      && r.store.books[OwnerOf(st, id, findOk)] == st.books[OwnerOf(st, id, findOk)].(notes := Without(st.books[OwnerOf(st, id, findOk)].notes, id))
    ensures r.store.books - {OwnerOf(st, id, findOk)} == st.books - {OwnerOf(st, id, findOk)}
    ensures r.result.Ok? <==> detachOk && deleteOk
    ensures r.result.Ok? ==> r.result.value == (if id in st.notes then 1 else 0)
    ensures detachOk && !deleteOk ==> r.result == Err(StoreError)
  {
    var owner := OwnerOf(st, id, findOk);
    var calls := [FindOneNote(id), RemoveNoteRef(owner, id)];
    if !detachOk then Reply(st, calls, Err(DetachFailed))
    else
      var detached := Detach(st, owner, id, true);
      if !deleteOk then Reply(detached, calls + [DeleteOneNote(id)], Err(StoreError))
      else Reply(detached.(notes := detached.notes - {id}), calls + [DeleteOneNote(id)],
                 Ok(if id in st.notes then 1 else 0))
  }

  /** EditNote: `UpdateOne` with the selected fields; the reply is the number
      of documents the update modified. */
  function EditNote(st: Store, fields: map<string, Value>, updateOk: bool): (r: Reply<nat>)
    ensures r.store.books == st.books
    ensures PrepareUpdate(fields).Err? ==> r.store == st && r.calls == [] && r.result == Err(InvalidId)
    ensures PrepareUpdate(fields).Ok? ==>
      var u := PrepareUpdate(fields).value;
      && r.calls == [UpdateOneNote(u.id, u.changes)]
      && (r.result.Ok? <==> updateOk)
      && (!updateOk ==> r.store == st && r.result == Err(StoreError))
      && r.store.notes - {u.id} == st.notes - {u.id}
      && (updateOk && u.id in st.notes ==> u.id in r.store.notes && r.store.notes[u.id] == ApplyNoteSet(st.notes[u.id], u.changes))
      && (updateOk && u.id !in st.notes ==> r.store == st)
      && (r.result.Ok? ==> r.result.value <= 1)
      && (r.result.Ok? ==> (r.result.value == 1 <==> u.id in st.notes && r.store.notes[u.id] != st.notes[u.id]))
  {
    match PrepareUpdate(fields)
    case Err(e) => Reply(st, [], Err(e))
    case Ok(u) =>
      var calls := [UpdateOneNote(u.id, u.changes)];
      if !updateOk then Reply(st, calls, Err(StoreError))
      else if u.id !in st.notes then Reply(st, calls, Ok(0))
      else
        var edited := ApplyNoteSet(st.notes[u.id], u.changes);
        Reply(st.(notes := st.notes[u.id := edited]), calls, Ok(if edited == st.notes[u.id] then 0 else 1))
  }
}

=== FILE: note_refs.dfy ===
/** Maintenance of a book's `notes` list: appending a reference (`$push`) and
    detaching one (the `deleteNote` helper). */
module NoteRefs {
  import opened ObjectId
  import opened Model

  /** `refs` with every occurrence of `x` removed, the others kept in order. */
  function Without(refs: seq<Id>, x: Id): (r: seq<Id>)
    ensures x !in r
    ensures forall y :: y in r <==> y in refs && y != x
    ensures forall y :: y != x ==> Count(r, y) == Count(refs, y)
    ensures |r| <= |refs|
  {
    if |refs| == 0 then []
    else if refs[0] == x then Without(refs[1..], x)
    else
      var rest := Without(refs[1..], x);
      assert ([refs[0]] + rest)[1..] == rest;
      [refs[0]] + rest
  }

  /** Detaching distributes over concatenation, so the kept ids stay in their
      original order. */
  lemma {:induction false} WithoutConcat(a: seq<Id>, b: seq<Id>, x: Id)
    ensures Without(a + b, x) == Without(a, x) + Without(b, x)
  {
    if |a| == 0 {
      assert a + b == b;
    } else {
      assert (a + b)[1..] == a[1..] + b;
      WithoutConcat(a[1..], b, x);
    }
  }

  /** Detaching a note listed once, between `before` and `after`, leaves
      exactly the others, in their order. */
  lemma DetachKeepsOrder(before: seq<Id>, after: seq<Id>, x: Id)
    requires x !in before && x !in after
    ensures Without(before + [x] + after, x) == before + after
  {
    var head := Without(before + [x], x);
    WithoutAppended(before, x);
    assert head == before;
    WithoutConcat(before + [x], after, x);
    WithoutAbsent(after, x);
  }

  /** Removing an absent reference changes nothing. */
  lemma {:induction false} WithoutAbsent(refs: seq<Id>, x: Id)
    requires x !in refs
    ensures Without(refs, x) == refs
  {
    if |refs| > 0 {
      WithoutAbsent(refs[1..], x);
      assert [refs[0]] + refs[1..] == refs;
    }
  }

  /** Removing a reference that was just appended restores the list. */
  lemma {:induction false} WithoutAppended(refs: seq<Id>, x: Id)
    requires x !in refs
    ensures Without(refs + [x], x) == refs
  {
    if |refs| == 0 {
      assert [x][1..] == [];
    } else {
      assert (refs + [x])[1..] == refs[1..] + [x];
      WithoutAppended(refs[1..], x);
      assert [refs[0]] + refs[1..] == refs;
    }
  }

  /** How often `x` occurs in `refs`. */
  function Count(refs: seq<Id>, x: Id): nat {
    if |refs| == 0 then 0 else (if refs[0] == x then 1 else 0) + Count(refs[1..], x)
  }

  lemma {:induction false} CountAbsent(refs: seq<Id>, x: Id)
    requires x !in refs
    ensures Count(refs, x) == 0
  {
    if |refs| > 0 {
      CountAbsent(refs[1..], x);
    }
  }

  lemma {:induction false} CountAppend(refs: seq<Id>, y: Id, x: Id)
    ensures Count(refs + [y], x) == Count(refs, x) + (if y == x then 1 else 0)
  {
    if |refs| == 0 {
      assert [y][1..] == [];
    } else {
      assert (refs + [y])[1..] == refs[1..] + [y];
      CountAppend(refs[1..], y, x);
    }
  }

  /** A reference appended to a list that lacked it occurs exactly once. */
  lemma AppendedOnce(refs: seq<Id>, x: Id)
    requires x !in refs
    ensures Count(refs + [x], x) == 1
  {
    CountAppend(refs, x, x);
    CountAbsent(refs, x);
  }

  /** `$push` of `noteId` onto the `notes` of book `bookId`; an update that
      matches no book is a silent no-op. */
  function Push(st: Store, bookId: Id, noteId: Id): (r: Store)
    ensures r.notes == st.notes && r.books.Keys == st.books.Keys
    ensures r.books - {bookId} == st.books - {bookId}
    ensures bookId in st.books ==> r.books[bookId] == st.books[bookId].(notes := st.books[bookId].notes + [noteId])
    ensures bookId !in st.books ==> r == st
  {
    if bookId in st.books then
      st.(books := st.books[bookId := st.books[bookId].(notes := st.books[bookId].notes + [noteId])])
    else st
  }

  /** The `deleteNote(bookId, noteId)` helper, whose body is not part of this
      model. Assumed from its call sites: when it reports success (`ok`) the
      reference is gone from that book's `notes`; when it reports failure the
      store is unchanged. */
  function Detach(st: Store, bookId: Id, noteId: Id, ok: bool): (r: Store)
    ensures r.notes == st.notes && r.books.Keys == st.books.Keys
    ensures r.books - {bookId} == st.books - {bookId}
    ensures !ok ==> r == st
    ensures ok && bookId in st.books ==>
      && noteId !in r.books[bookId].notes
      && (forall y :: y != noteId ==> Count(r.books[bookId].notes, y) == Count(st.books[bookId].notes, y))
      && r.books[bookId] == st.books[bookId].(notes := r.books[bookId].notes)
  {
    if ok && bookId in st.books then
      st.(books := st.books[bookId := st.books[bookId].(notes := Without(st.books[bookId].notes, noteId))])
    else st
  }

  /** Detaching a reference right after pushing it restores the store. */
  lemma DetachUndoesPush(st: Store, bookId: Id, noteId: Id)
    requires bookId in st.books ==> noteId !in st.books[bookId].notes
    ensures Detach(Push(st, bookId, noteId), bookId, noteId, true) == st
  {
    if bookId in st.books {
      var b := st.books[bookId];
      WithoutAppended(b.notes, noteId);
      assert b.(notes := b.notes) == b;
      assert st.books[bookId := b] == st.books;
    }
  }
}

=== FILE: object_id.dfy ===
/** Identifiers of books and notes: MongoDB's 12-byte ObjectID and its
    24-digit hexadecimal text form, as accepted by `ObjectIDFromHex` and
    produced by `Hex`. */
module ObjectId {
  import opened Wrappers

  newtype byte = x: int | 0 <= x < 256

  /** A 12-byte object identifier. */
  type Id = b: seq<byte> | |b| == 12 witness [0, 0, 0, 0, 0, 0, 0, 0, 0, 0, 0, 0]

  /** The all-zero identifier: the value of an ObjectID field that was never set
      (`primitive.NilObjectID`). */
  const Nil: Id := [0, 0, 0, 0, 0, 0, 0, 0, 0, 0, 0, 0]

  predicate IsHexDigit(c: char) {
    '0' <= c <= '9' || 'a' <= c <= 'f' || 'A' <= c <= 'F'
  }

  predicate IsLowerHexDigit(c: char) {
    '0' <= c <= '9' || 'a' <= c <= 'f'
  }

  predicate AllHex(s: string) {
    forall i :: 0 <= i < |s| ==> IsHexDigit(s[i])
  }

  predicate AllLowerHex(s: string) {
    forall i :: 0 <= i < |s| ==> IsLowerHexDigit(s[i])
  }

  function HexValue(c: char): (v: nat)
    requires IsHexDigit(c)
    ensures v < 16
  {
    if '0' <= c <= '9' then c as int - '0' as int
    else if 'a' <= c <= 'f' then c as int - 'a' as int + 10
    else c as int - 'A' as int + 10
  }

  /** The lower-case digit for a value below sixteen. */
  function HexChar(v: nat): (c: char)
    requires v < 16
    ensures IsLowerHexDigit(c) && HexValue(c) == v
  {
    if v < 10 then ('0' as int + v) as char else ('a' as int + v - 10) as char
  }

  /** A hexadecimal digit folded to lower case. */
  function ToLowerHex(c: char): (d: char)
    requires IsHexDigit(c)
    ensures IsLowerHexDigit(d) && HexValue(d) == HexValue(c)
    ensures IsLowerHexDigit(c) ==> d == c
  {
    if 'A' <= c <= 'F' then (c as int - 'A' as int + 'a' as int) as char else c
  }

  lemma HexCharOfValue(c: char)
    requires IsHexDigit(c)
    ensures HexChar(HexValue(c)) == ToLowerHex(c)
  {
  }

  /** A hexadecimal string folded to lower case, digit by digit. */
  function LowerHex(s: string): string
    requires AllHex(s)
  {
    seq(|s|, i requires 0 <= i < |s| => ToLowerHex(s[i]))
  }

  /** Go's `hex.DecodeString`: two digits per byte, high nibble first; an odd
      length or a non-digit is an error. */
  function DecodeHex(s: string): (r: Option<seq<byte>>)
    ensures r.Some? <==> |s| % 2 == 0 && AllHex(s)
    ensures r.Some? ==> 2 * |r.value| == |s|
    decreases |s|
  {
    if |s| == 0 then Some([])
    else if |s| == 1 || !IsHexDigit(s[0]) || !IsHexDigit(s[1]) then None
    else
      match DecodeHex(s[2..])
      case None => None
      case Some(rest) => Some([(16 * HexValue(s[0]) + HexValue(s[1])) as byte] + rest)
  }

  /** Go's `hex.EncodeToString`: two lower-case digits per byte. */
  function EncodeHex(bs: seq<byte>): (s: string)
    ensures |s| == 2 * |bs|
    ensures AllLowerHex(s)
  {
    if |bs| == 0 then []
    else [HexChar(bs[0] as int / 16), HexChar(bs[0] as int % 16)] + EncodeHex(bs[1..])
  }

  /** `primitive.ObjectIDFromHex`: exactly 24 hexadecimal digits, in either case. */
  function Decode(s: string): (r: Option<Id>)
    ensures r.Some? <==> |s| == 24 && AllHex(s)
  {
    if |s| != 24 then None
    else
      match DecodeHex(s)
      case None => None
      case Some(bs) => Some(bs)
  }

  /** `ObjectID.Hex`: the canonical lower-case text form. */
  function Encode(id: Id): (s: string)
    ensures |s| == 24 && AllLowerHex(s)
  {
    EncodeHex(id)
  }

  lemma {:induction false} DecodeHexOfEncodeHex(bs: seq<byte>)
    ensures DecodeHex(EncodeHex(bs)) == Some(bs)
    decreases |bs|
  {
    if |bs| > 0 {
      var s := EncodeHex(bs);
      assert s[2..] == EncodeHex(bs[1..]);
      DecodeHexOfEncodeHex(bs[1..]);
      var b := bs[0] as int;
      assert 16 * (b / 16) + b % 16 == b;
      assert [bs[0]] + bs[1..] == bs;
    }
  }

  /** Every identifier survives a trip through its text form. */
  lemma DecodeEncode(id: Id)
    ensures Decode(Encode(id)) == Some(id)
  {
    DecodeHexOfEncodeHex(id);
  }

  lemma {:induction false} EncodeHexOfDecodeHex(s: string)
    requires DecodeHex(s).Some?
    ensures AllHex(s) && EncodeHex(DecodeHex(s).value) == LowerHex(s)
    decreases |s|
  {
    if |s| > 0 {
      EncodeHexOfDecodeHex(s[2..]);
      var hi, lo := HexValue(s[0]), HexValue(s[1]);
      var b := 16 * hi + lo;
      assert b / 16 == hi && b % 16 == lo;
      HexCharOfValue(s[0]);
      HexCharOfValue(s[1]);
      assert LowerHex(s) == [ToLowerHex(s[0]), ToLowerHex(s[1])] + LowerHex(s[2..]);
    }
  }

  /** A text that decodes is the encoding of its identifier, up to letter case. */
  lemma EncodeDecode(s: string)
    requires Decode(s).Some?
    ensures AllHex(s) && Encode(Decode(s).value) == LowerHex(s)
  {
    EncodeHexOfDecodeHex(s);
  }

  /** Two texts denote the same identifier exactly when they agree up to case. */
  lemma DecodeInjective(s: string, t: string)
    requires Decode(s).Some? && Decode(t).Some?
    ensures Decode(s) == Decode(t) <==> LowerHex(s) == LowerHex(t)
  {
    EncodeDecode(s);
    EncodeDecode(t);
    if LowerHex(s) == LowerHex(t) {
      DecodeEncode(Decode(s).value);
      DecodeEncode(Decode(t).value);
    }
  }
}

=== FILE: partial_update.dfy ===
/** The partial update shared by EditBook and EditNote: decode the
    `id` field, then `$set` every field whose value is not the empty string. */
module PartialUpdate {
  import opened Wrappers
  import opened ObjectId
  import opened Model

  /** The field that names the document to edit. */
  const IdKey: string := "id"

  /** The value a Go map yields for `key`: nil when the key is absent. */
  function Get(fields: map<string, Value>, key: string): Value {
    if key in fields then fields[key] else Null
  }

  /** The `strIdToPrimitive` helper, whose body is not part of this model:
      assumed to accept exactly a string that `ObjectIDFromHex` accepts. */
  function StrIdToPrimitive(v: Value): Option<Id> {
    match v
    case Str(s) => Decode(s)
    case _ => None
  }

  /** A single-document update: the id to match and the fields to `$set`. */
  datatype Update = Update(id: Id, changes: map<string, Value>)

  /** Decodes `fields["id"]`, writes the decoded id back in its place, and keeps
      every entry whose value is not `""`. Go iterates the map in random order,
      so the selected fields are a map, not a sequence. */
  function PrepareUpdate(fields: map<string, Value>): (r: Result<Update, Error>)
    ensures r.Err? <==> !(IdKey in fields && fields[IdKey].Str? && Decode(fields[IdKey].s).Some?)
    ensures r.Err? ==> r.error == InvalidId
    ensures r.Ok? ==> Decode(fields[IdKey].s) == Some(r.value.id)
    ensures r.Ok? ==> IdKey in r.value.changes && r.value.changes[IdKey] == Oid(r.value.id)
    ensures r.Ok? ==> forall k :: k != IdKey ==> (k in r.value.changes <==> k in fields && fields[k] != Str(""))
    ensures r.Ok? ==> forall k :: k in r.value.changes && k != IdKey ==> r.value.changes[k] == fields[k]
  {
    match StrIdToPrimitive(Get(fields, IdKey))
    case None => Err(InvalidId)
    case Some(oid) =>
      var bound := fields[IdKey := Oid(oid)];
      Ok(Update(oid, map k | k in bound && bound[k] != Str("") :: bound[k]))
  }

  // ---- Applying `$set` to a typed document ----
  // Documents are stored with the driver's default field names, the struct
  // field names in lower case. A `$set` entry on such a field takes effect when
  // its value has the field's kind; a null clears the field, which then decodes
  // as its zero value. Entries under other keys are not modelled: a key that
  // names no field is invisible in the typed view, but one that matches a field
  // up to letter case (`startTime`, `bookID`) would change the decoded document.

  /** The field names of a stored book. */
  const BookKeys: set<string> := {"id", "title", "author", "status", "starttime", "endtime", "notes", "description"}

  /** The field names of a stored note. */
  const NoteKeys: set<string> := {"id", "bookid", "content", "replyto", "createtime"}

  /** Whether `changes` sets field `key` to null. */
  predicate Cleared(changes: map<string, Value>, key: string) {
    key in changes && changes[key].Null?
  }

  function TextField(changes: map<string, Value>, key: string, current: string): string {
    if key !in changes then current
    else match changes[key]
      case Str(s) => s
      case Null => ""
      case _ => current
  }

  function NumberField(changes: map<string, Value>, key: string, current: int): int {
    if key !in changes then current
    else match changes[key]
      case Number(n) => n
      case Null => 0
      case _ => current
  }

  function IdField(changes: map<string, Value>, key: string, current: Id): Id {
    if key !in changes then current
    else match changes[key]
      case Oid(id) => id
      case Null => Nil
      case _ => current
  }

  function TimeField(changes: map<string, Value>, key: string, current: Time): Time {
    if Cleared(changes, key) then ZeroTime else current
  }

  /** A book after `$set` with `changes`. */
  function ApplyBookSet(b: Book, changes: map<string, Value>): (r: Book)
    ensures (forall k :: k in changes ==> k !in BookKeys) ==> r == b
    ensures IdKey in changes && changes[IdKey].Oid? ==> r.id == changes[IdKey].id
    ensures !Cleared(changes, "notes") ==> r.notes == b.notes
    ensures Cleared(changes, "notes") ==> r.notes == []
  {
    b.(id := IdField(changes, IdKey, b.id),
       title := TextField(changes, "title", b.title),
       author := TextField(changes, "author", b.author),
       status := NumberField(changes, "status", b.status),
       startTime := TimeField(changes, "starttime", b.startTime),
       endTime := TimeField(changes, "endtime", b.endTime),
       notes := if Cleared(changes, "notes") then [] else b.notes,
       description := TextField(changes, "description", b.description))
  }

  /** A note after `$set` with `changes`. */
  function ApplyNoteSet(n: Note, changes: map<string, Value>): (r: Note)
    ensures (forall k :: k in changes ==> k !in NoteKeys) ==> r == n
    ensures IdKey in changes && changes[IdKey].Oid? ==> r.id == changes[IdKey].id
    ensures "bookid" !in changes ==> r.bookId == n.bookId
    ensures Cleared(changes, "bookid") ==> r.bookId == Nil
  {
    n.(id := IdField(changes, IdKey, n.id),
       bookId := IdField(changes, "bookid", n.bookId),
       content := TextField(changes, "content", n.content),
       replyTo := IdField(changes, "replyto", n.replyTo),
       createTime := TimeField(changes, "createtime", n.createTime))
  }

  /** What a text field of the client's payload means: an empty string leaves
      the field alone, a null clears it, any other string replaces it. */
  function Edited(fields: map<string, Value>, key: string, current: string): string {
    if key !in fields then current
    else match fields[key]
      case Str(s) => if s == "" then current else s
      case Null => ""
      case _ => current
  }

  /** What an identifier field of the payload means: an identifier replaces
      it, a null clears it; a JSON payload only ever carries text or null here. */
  function EditedId(fields: map<string, Value>, key: string, current: Id): Id {
    if key !in fields then current
    else match fields[key]
      case Oid(id) => id
      case Null => Nil
      case _ => current
  }

  /** Editing a book sets each non-empty text field of the payload, a numeric
      status and the decoded id, clears each field the payload nulls, and
      leaves every other field alone. */
  lemma BookEditSemantics(b: Book, fields: map<string, Value>)
    requires PrepareUpdate(fields).Ok?
    ensures var u := PrepareUpdate(fields).value; var b' := ApplyBookSet(b, u.changes);
      && b'.id == u.id
      && b'.title == Edited(fields, "title", b.title)
      && b'.author == Edited(fields, "author", b.author)
      && b'.description == Edited(fields, "description", b.description)
      && b'.status == (if "status" in fields && fields["status"].Number? then fields["status"].n
                       else if Cleared(fields, "status") then 0 else b.status)
      && b'.notes == (if Cleared(fields, "notes") then [] else b.notes)
      && b'.startTime == (if Cleared(fields, "starttime") then ZeroTime else b.startTime)
      && b'.endTime == (if Cleared(fields, "endtime") then ZeroTime else b.endTime)
  {
  }

  /** Editing a note sets its content when the payload's is non-empty, clears
      each field the payload nulls (the owner included), and leaves every
      other field alone. */
  lemma NoteEditSemantics(n: Note, fields: map<string, Value>)
    requires PrepareUpdate(fields).Ok?
    ensures var u := PrepareUpdate(fields).value; var n' := ApplyNoteSet(n, u.changes);
      && n'.id == u.id
      && n'.content == Edited(fields, "content", n.content)
      && n'.bookId == EditedId(fields, "bookid", n.bookId)
      && n'.replyTo == EditedId(fields, "replyto", n.replyTo)
      && n'.createTime == (if Cleared(fields, "createtime") then ZeroTime else n.createTime)
  {
  }
}

=== FILE: properties.dfy ===
/** Properties that relate several handlers: the store invariant each one
    keeps or breaks, and the book/note scenarios end to end. */
module Properties {
  import opened Wrappers
  import opened ObjectId
  import opened Model
  import opened NoteRefs
  import opened PartialUpdate
  import opened BookApi
  import opened NoteApi

  // ---- Identifier validation ----

  /** A malformed identifier is rejected before any store call, leaving the
      store as it was, by every handler that takes one as text. */
  lemma InvalidIdTouchesNothing(st: Store, idText: string, fields: map<string, Value>, ok1: bool, ok2: bool, failing: set<nat>)
    requires Decode(idText).None?
    requires !(IdKey in fields && fields[IdKey].Str? && Decode(fields[IdKey].s).Some?)
    ensures GetBook(st, idText, ok1) == Reply(st, [], Err(InvalidId))
    ensures DeleteBook(st, idText, ok1, ok2) == Reply(st, [], Err(InvalidId))
    ensures EditBook(st, fields, ok1) == Reply(st, [], Err(InvalidId))
    ensures ListNoteByBook(st, idText, ok1, failing) == Reply(st, [], Err(InvalidId))
    ensures GetNote(st, idText, ok1) == Reply(st, [], Err(InvalidId))
    ensures EditNote(st, fields, ok1) == Reply(st, [], Err(InvalidId))
  {
  }

  // ---- Book creation ----

  lemma AddBookKeepsValid(st: Store, input: Book, freshId: Id, insertOk: bool)
    requires Valid(st) && freshId !in st.books
    ensures Valid(AddBook(st, input, freshId, insertOk).store)
  {
  }

  /** A created book can be fetched back by the text form of its new id. */
  lemma AddBookThenGetBook(st: Store, input: Book, freshId: Id)
    requires freshId != Nil
    ensures GetBook(AddBook(st, input, freshId, true).store, Encode(freshId), true).result == Ok(NewBook(input, freshId))
  {
    DecodeEncode(freshId);
  }

  // ---- Note creation ----

  /** A fresh note id is referenced by no book of a consistent store. */
  lemma FreshIdUnreferenced(st: Store, freshId: Id)
    requires Consistent(st) && freshId !in st.notes
    ensures forall k :: k in st.books ==> freshId !in st.books[k].notes
  {
  }

  /** Unless the compensation itself fails, AddNote keeps the invariant. */
  lemma AddNoteKeepsValid(st: Store, input: Note, freshId: Id, now: Time, pushOk: bool, insertOk: bool, detachOk: bool)
    requires Valid(st) && freshId !in st.notes
    requires !(pushOk && !insertOk && !detachOk)
    ensures Valid(AddNote(st, input, freshId, now, pushOk, insertOk, detachOk).store)
  {
  }

  /** After a successful AddNote on an existing book, the new id occurs
      exactly once in that book's list and in no other, and the stored note
      names the book as its owner. */
  lemma AddNoteReferencedOnce(st: Store, input: Note, freshId: Id, now: Time, detachOk: bool)
    requires Consistent(st) && freshId !in st.notes && input.bookId in st.books
    ensures var r := AddNote(st, input, freshId, now, true, true, detachOk);
      && r.result == Ok(freshId)
      && Count(r.store.books[input.bookId].notes, freshId) == 1
      && (forall k :: k in r.store.books && k != input.bookId ==> freshId !in r.store.books[k].notes)
      && r.store.notes[freshId].bookId == input.bookId
      && r.store.notes[freshId].content == input.content
  {
    var r := AddNote(st, input, freshId, now, true, true, detachOk);
    FreshIdUnreferenced(st, freshId);
    AppendedOnce(st.books[input.bookId].notes, freshId);
    forall k | k in r.store.books && k != input.bookId
      ensures freshId !in r.store.books[k].notes
    {
      assert r.store.books[k] == st.books[k];
    }
  }

  /** When the insert fails and the compensation succeeds, the store is
      exactly as before the request. */
  lemma AddNoteCompensationRestores(st: Store, input: Note, freshId: Id, now: Time)
    requires Consistent(st) && freshId !in st.notes
    ensures var r := AddNote(st, input, freshId, now, true, false, true);
      r.store == st && r.result == Err(StoreError)
  {
    FreshIdUnreferenced(st, freshId);
    DetachUndoesPush(st, input.bookId, freshId);
  }

  /** When the insert and then the compensation both fail, the book lists an
      id whose note does not exist: the store is left inconsistent. */
  lemma AddNoteCompensationFailureDangles(st: Store, input: Note, freshId: Id, now: Time)
    requires freshId !in st.notes && input.bookId in st.books
    ensures var r := AddNote(st, input, freshId, now, true, false, false);
      && freshId in r.store.books[input.bookId].notes
      && freshId !in r.store.notes
      && !Consistent(r.store)
  {
    var r := AddNote(st, input, freshId, now, true, false, false);
    assert r.store.books[input.bookId].notes == st.books[input.bookId].notes + [freshId];
  }

  // ---- Note deletion ----

  /** DeleteNote keeps the invariant when its lookup succeeds, and afterwards
      no book lists the note if the detach succeeded. */
  lemma DeleteNoteKeepsValid(st: Store, id: Id, detachOk: bool, deleteOk: bool)
    requires Valid(st)
    ensures var r := DeleteNote(st, id, true, detachOk, deleteOk);
      && Valid(r.store)
      && (detachOk ==> forall k :: k in r.store.books ==> id !in r.store.books[k].notes)
  {
  }

  /** A note is removed only after it was detached; a failed detach
      leaves the note document in place. */
  lemma DetachBeforeDelete(st: Store, id: Id, findOk: bool, detachOk: bool, deleteOk: bool)
    requires id in st.notes
    ensures var r := DeleteNote(st, id, findOk, detachOk, deleteOk);
      && (!detachOk ==> id in r.store.notes && r.result == Err(DetachFailed))
      && (id !in r.store.notes ==> |r.calls| == 3 && r.calls[1].RemoveNoteRef? && r.calls[2] == DeleteOneNote(id))
  {
  }

  /** Deleting a note listed once by its book leaves the book's other notes
      in their original order. */
  lemma DeleteNoteKeepsOrder(st: Store, id: Id, before: seq<Id>, after: seq<Id>, deleteOk: bool)
    requires id in st.notes && st.notes[id].bookId in st.books
    requires st.books[st.notes[id].bookId].notes == before + [id] + after
    requires id !in before && id !in after
    ensures var b := st.notes[id].bookId; var r := DeleteNote(st, id, true, true, deleteOk);
      r.store.books[b].notes == before + after
  {
    DetachKeepsOrder(before, after, id);
  }

  /** The lookup's outcome is never checked: if it fails and `deleteNote`
      reports success for the nil owner, the note is deleted while its book
      still lists it. */
  lemma DeleteNoteLookupFailureDangles(st: Store, id: Id)
    requires id in st.notes && st.notes[id].bookId in st.books && st.notes[id].bookId != Nil
    requires id in st.books[st.notes[id].bookId].notes
    ensures var r := DeleteNote(st, id, false, true, true);
      r.result == Ok(1) && !Consistent(r.store)
  {
    var b := st.notes[id].bookId;
    var r := DeleteNote(st, id, false, true, true);
    assert r.store.books[b] == st.books[b];
  }

  // ---- Book deletion ----

  /** A completed DeleteBook removes the book and every note it owned,
      keeps the invariant, and leaves neither retrievable. */
  lemma DeleteBookCascade(st: Store, idText: string)
    requires Valid(st) && Decode(idText).Some? && Decode(idText).value in st.books
    ensures var oid := Decode(idText).value; var r := DeleteBook(st, idText, true, true);
      && r.result == Ok(1)
      && Valid(r.store)
      && (forall k :: k in r.store.notes ==> r.store.notes[k].bookId != oid)
      && GetBook(r.store, idText, true).result == Err(NotFound)
      && (forall n :: n in st.books[oid].notes ==> GetNote(r.store, Encode(n), true).result == Err(NotFound))
  {
    var oid := Decode(idText).value;
    var r := DeleteBook(st, idText, true, true);
    var s' := r.store;
    forall k, m | k in s'.books && m in s'.books[k].notes
      ensures m in s'.notes && s'.notes[m].bookId == k
    {
      assert m in st.books[k].notes;
    }
    forall n | n in st.books[oid].notes
      ensures GetNote(s', Encode(n), true).result == Err(NotFound)
    {
      DecodeEncode(n);
    }
  }

  /** When the notes are gone but the book's own delete fails, the book
      survives listing notes that no longer exist; nothing restores them. */
  lemma DeleteBookPartialFailureDangles(st: Store, idText: string, n: Id)
    requires Consistent(st) && Decode(idText).Some?
    requires var oid := Decode(idText).value; oid in st.books && n in st.books[oid].notes
    ensures var r := DeleteBook(st, idText, true, false);
      && r.result == Err(StoreError)
      && n !in r.store.notes
      && !Consistent(r.store)
  {
  }

  // ---- Edits ----

  /** Book edits never empty a list into dangling references nor move a
      book, so they keep the invariant, a nulled `notes` included. */
  lemma EditBookKeepsValid(st: Store, fields: map<string, Value>, updateOk: bool)
    requires Valid(st)
    ensures Valid(EditBook(st, fields, updateOk).store)
  {
  }

  /** Whether an edit payload leaves the note's owner field alone in the typed
      view: it does not null or re-point `bookid`. */
  predicate KeepsOwner(fields: map<string, Value>) {
    "bookid" !in fields || !(fields["bookid"].Null? || fields["bookid"].Oid?)
  }

  /** A note edit that leaves the owner alone keeps the invariant. */
  lemma EditNoteKeepsValid(st: Store, fields: map<string, Value>, updateOk: bool)
    requires Valid(st) && KeepsOwner(fields)
    ensures Valid(EditNote(st, fields, updateOk).store)
  {
    var r := EditNote(st, fields, updateOk);
    if r.result.Ok? {
      var u := PrepareUpdate(fields).value;
      if u.id in st.notes {
        NoteEditSemantics(st.notes[u.id], fields);
      }
    }
  }

  /** A note edit whose payload nulls `bookid` clears the owner of a note its
      book still lists, so the invariant breaks. */
  lemma EditNoteNullOwnerDangles(st: Store, k: Id, n: Id)
    requires Consistent(st) && k in st.books && k != Nil && n in st.books[k].notes
    ensures var r := EditNote(st, map[IdKey := Str(Encode(n)), "bookid" := Null], true);
      && r.result == Ok(1)
      && r.store.notes[n].bookId == Nil
      && !Consistent(r.store)
  {
    var fields := map[IdKey := Str(Encode(n)), "bookid" := Null];
    DecodeEncode(n);
    assert PrepareUpdate(fields).Ok? && PrepareUpdate(fields).value.id == n;
    NoteEditSemantics(st.notes[n], fields);
    var r := EditNote(st, fields, true);
    assert r.store.books[k] == st.books[k];
  }

  /** After EditBook, each text field holds the payload's string if that was
      non-empty, is cleared if the payload nulls it, and keeps its old value
      otherwise. */
  lemma EditBookSetsGivenFields(st: Store, fields: map<string, Value>)
    requires Valid(st) && PrepareUpdate(fields).Ok? && PrepareUpdate(fields).value.id in st.books
    ensures var oid := PrepareUpdate(fields).value.id; var r := EditBook(st, fields, true);
      && r.result == Ok(st.books[oid])
      && r.store.books[oid].id == oid
      && r.store.books[oid].title == Edited(fields, "title", st.books[oid].title)
      && r.store.books[oid].author == Edited(fields, "author", st.books[oid].author)
      && r.store.books[oid].description == Edited(fields, "description", st.books[oid].description)
      && r.store.books[oid].notes == (if Cleared(fields, "notes") then [] else st.books[oid].notes)
  {
    BookEditSemantics(st.books[PrepareUpdate(fields).value.id], fields);
  }

  // ---- Listing notes ----

  /** In a valid store with every lookup succeeding, the listing of a book is
      exactly its notes, in its order, each owned by that book. */
  lemma ListedNotesBelongToBook(st: Store, idText: string)
    requires Valid(st) && Decode(idText).Some?
    requires var oid := Decode(idText).value; oid in st.books && oid != Nil
    ensures var oid := Decode(idText).value; var r := ListNoteByBook(st, idText, true, {});
      && r.result.Ok?
      && |r.result.value| == |st.books[oid].notes|
      && forall i :: 0 <= i < |r.result.value| ==>
           && r.result.value[i] == st.notes[st.books[oid].notes[i]]
           && r.result.value[i].id == st.books[oid].notes[i]
           && r.result.value[i].bookId == oid
  {
  }

  /** A note added to a book appears at the end of the book's listing, after
      the notes that were listed before. */
  lemma AddNoteThenList(st: Store, input: Note, freshId: Id, now: Time, detachOk: bool)
    requires Valid(st) && freshId !in st.notes
    requires input.bookId in st.books && input.bookId != Nil
    ensures var before := ListNoteByBook(st, Encode(input.bookId), true, {});
      var after := ListNoteByBook(AddNote(st, input, freshId, now, true, true, detachOk).store, Encode(input.bookId), true, {});
      && before.result.Ok? && after.result.Ok?
      && after.result.value == before.result.value + [NewNote(input, freshId, now)]
  {
    var b := input.bookId;
    DecodeEncode(b);
    var s' := AddNote(st, input, freshId, now, true, true, detachOk).store;
    var before := ListNoteByBook(st, Encode(b), true, {});
    var after := ListNoteByBook(s', Encode(b), true, {});
    var refs := st.books[b].notes;
    assert s'.books[b].notes == refs + [freshId];
    forall i | 0 <= i < |refs|
      ensures after.result.value[i] == before.result.value[i]
    {
      assert refs[i] in st.books[b].notes;
      assert refs[i] != freshId;
    }
  }

  // ---- Scenarios ----

  /** Create a book, attach a note, delete the note: the book lists exactly
      that note in between, and nothing afterwards; the note is gone. */
  lemma CreateAttachDeleteScenario(st: Store, bookInput: Book, b: Id, noteInput: Note, n: Id, now: Time)
    requires Valid(st) && b !in st.books && n !in st.notes && b != Nil && n != Nil
    requires noteInput.bookId == b
    ensures var st1 := AddBook(st, bookInput, b, true).store;
      var st2 := AddNote(st1, noteInput, n, now, true, true, true).store;
      var st3 := DeleteNote(st2, n, true, true, true).store;
      && st2.books[b].notes == [n]
      && st3.books[b].notes == []
      && GetNote(st3, Encode(n), true).result == Err(NotFound)
      && Valid(st3)
  {
    var st1 := AddBook(st, bookInput, b, true).store;
    AddBookKeepsValid(st, bookInput, b, true);
    AddNoteKeepsValid(st1, noteInput, n, now, true, true, true);
    var st2 := AddNote(st1, noteInput, n, now, true, true, true).store;
    DeleteNoteKeepsValid(st2, n, true, true);
    DecodeEncode(n);
  }
}

=== FILE: wrappers.dfy ===
/** Failure-carrying wrappers shared by the whole model. */
module Wrappers {

  /** An optional value: Go's "value, err" pair when only success matters. */
  datatype Option<+T> = None | Some(value: T)

  /** The outcome of a handler: a success payload or an error. */
  datatype Result<+R, +E> = Ok(value: R) | Err(error: E)
}
